=== FILE: README.md ===
# loggit in Dafny

A Dafny model of the text-processing core of `loggit`, a small Go tool that
keeps a changelog from commit messages. On a commit whose message starts
with the bump marker ("Bump version" by default) it takes the version from
the message. It then collects the `log:` trailers of the commits since the
previous bump commit and writes a new section in front of `CHANGELOG.md`:
a header line, one bullet per entry, an empty line, then the old content.
Finally it tags the version in git. In branch mode it writes the entries of
the commits on the current branch to `<branch>-CHANGELOG.md`.

The model is functional. Strings are `seq<char>`, and `git` is a function
parameter from the arguments after `git` to what the run gave (`GitRun`).
The commit message file, the old changelog file and today's date are plain
inputs. Each fatal exit of the program (`log.Fatal*`) becomes the `Fatal`
variant of `Outcome`. The "No new version in this commit" return, after
which the program exits successfully without changing anything, becomes
the separate `NoVersion` variant.

Modules, one file each:

- `Outcomes`: the `Option` and `Outcome` result types.
- `Text`: Go's string helpers, restated over ASCII:
  - `strings.HasPrefix`, `strings.TrimSpace`, `strings.Split` on `"\n"` and `strings.Join`;
  - the line splitting of `bufio.Scanner`;
  - `filepath.Split`.
- `Configuration`: the `Config` record and `setNilConfigFields`.
- `Version`: `getNewVersion`, plus a matcher for the default pattern `\d+\.\d+\.\d+`.
  - The matcher is proved to return the leftmost, longest match, as Go's `regexp.Find` does for this pattern.
- `Git`: the git queries and how their output is read.
- `Collector`: `collectLogMsgs`.
- `Changelog`:
  - the section header;
  - the content `writeTempLogFile` writes;
  - the branch changelog's name and lines.
- `Loggit`: the two runs, `AppendToChangelog` and `WriteBranchChangelog`.

Two behaviours of the program worth noting:

- Tagging happens after the changelog has been replaced, so the run is not all-or-nothing. `AppendToChangelog` creates the tag after the rename. A failing `git tag` is fatal but leaves the new changelog in place (`Loggit.TagFailureKeepsChangelog`).
- The trailer test does not trim the body line. `collectLogMsgs` tests the body line itself for the trailer prefix (loggit.go:277). Body lines are non-empty lines of the trimmed query output, so only the output's own leading white space is removed. A body line indented inside the output gives no entry.

## Model

| member | source | states |
|---|---|---|
| Configuration.SetNilConfigFields | loggit.go:60-85 | After filling, every string field is non-empty and the tag flag is set. Fields that were set keep their values, and unset fields take the program's default constants. |
| Configuration.FillFixpoint | loggit.go:60-85 | Filling leaves a configuration unchanged exactly when it is already complete, and filling twice equals filling once. |
| Configuration.UnsetTakesDefaults | loggit.go:60-85 | For a configuration with every field empty or unset, every field takes the program's default constant and the tag flag is set to its default. |
| Version.GetNewVersion | loggit.go:157-168 | A message without the exact bump-marker prefix gives the recoverable no-version outcome, whatever the pattern. With the prefix and a non-empty match, the version is that match. No match is fatal with the "Invalid format" message, never an empty version. |
| Version.EmptyMessageHasNoVersion | loggit.go:158-160 | With a filled configuration the marker is non-empty, so an empty message declares no version, whatever the pattern. |
| Version.FindVersion | loggit.go:162-163 | The matcher for `\d+\.\d+\.\d+` returns "" exactly when no substring of the input matches. Otherwise it returns the substring that starts leftmost, and the longest one among those starting there. |
| Version.DefaultVersionMatch | loggit.go:162-168 | With the default pattern, a bump message is fatal exactly when nothing in it matches. Otherwise the version is the leftmost-longest matching substring of the message. |
| Git.Stdout | loggit.go:176-180 | Only a non-zero exit of `git` is fatal. A run that exits zero gives exactly its output, and a `git` that could not be started gives empty output. |
| Git.PrevBumpHashFromLog | loggit.go:182-188 | The previous bump hash is the first line of the `git log -n 1` output, so it has no line feed. It is a prefix of the output and ends at the output's end or at a line feed. Empty output gives the empty hash. |
| Git.GetPrevBumpCommitHash | loggit.go:171-189 | The lookup is fatal exactly when `git` exits non-zero. When `git` ran, the hash is the first line of its output, so it has no line feed and starts the output. A `git` that could not start gives the empty hash. |
| Git.CommitsInterval | loggit.go:259-263 | The range always ends in "HEAD". It is "HEAD" alone exactly when there is no previous hash. Otherwise it is the hash followed by "..HEAD", so the hash can be read back from it. |
| Git.AppendModeRange | loggit.go:259-263 | Empty output, or output whose first line is empty, scans the range "HEAD". Otherwise the range is the first line followed by "..HEAD". |
| Git.GetCurrentGitBranch | loggit.go:191-199 | The branch lookup is fatal exactly when `git` exits non-zero. When `git` ran, the name is its output without surrounding white space, so it is empty exactly when the output is all white space. |
| Git.FirstBranchHashFromLog | loggit.go:211-218 | Fatal exactly when the output is empty or ends in a line feed. Otherwise the hash is the output's non-empty last line: a suffix that is the whole output or comes right after a line feed. |
| Git.GetFirstBranchCommitHash | loggit.go:201-219 | When `git` ran, the result is what the last line of its output gives: that line when it is non-empty, the "first commit hash" fatal otherwise. A `git` that could not start also leads to that fatal. |
| Git.SubjectLines | loggit.go:230-231 | The subject list is the lines of the trimmed output. There is always at least one line, none holds a line feed, and joining them gives the trimmed output back. It is `[""]` exactly when the output is all white space. |
| Git.BodyLines | loggit.go:245-255 | The body list is the non-empty lines of the trimmed output, in their order and with repeats kept. It is empty exactly when the output is all white space. |
| Git.GetGitCommitSubjects | loggit.go:221-234 | The subjects query is fatal exactly on a non-zero exit. When `git` ran, it gives the subject lines of the output. It always yields at least one line, and `[""]` when `git` could not start. |
| Git.GetGitCommitBodies | loggit.go:236-256 | The bodies query is fatal exactly on a non-zero exit. When `git` ran, it gives the body lines of the output. It yields non-empty single lines, and none when `git` could not start. |
| Text.DropEmpty | loggit.go:247-253 | The kept lines are exactly the non-empty ones, and there are no more of them than of the input lines. |
| Text.DropEmptyAppend | loggit.go:247-253 | Dropping empty lines keeps the order: dropping them from two concatenated lists equals dropping them from each list and concatenating. |
| Text.TrimSpace | loggit.go:230 | The trimmed string is a contiguous part of the input with only white space around it. It neither starts nor ends with white space, and it is empty exactly when the input is all white space. |
| Text.Split | loggit.go:231 | Splitting on line feeds gives at least one piece, and no piece holds a line feed. Joining the pieces with line feeds gives the input back. |
| Text.SplitJoin | loggit.go:231 | Joining pieces without line feeds and splitting again gives the same pieces back. |
| Text.DropCR | loggit.go:323-324 | The scanner removes one trailing carriage return from a line, and only that. A line without one is kept as it is. |
| Text.ScanPieces | loggit.go:323-324 | The scanned lines are the line-feed pieces of the text in order, without the empty piece after a final line feed, each with a trailing carriage return removed. None holds a line feed, and there are none exactly when the text is empty. |
| Text.ScanUnlines | loggit.go:323-326 | Reading back lines that were each written with a line feed gives the same lines, provided none holds a line feed or ends in a carriage return. |
| Text.UnlinesScan | loggit.go:323-326 | Re-emitting each scanned line with a line feed reproduces text that is empty or ends in a line feed and holds no carriage return. |
| Text.UnlinesScanAddsLineFeed | loggit.go:323-326 | Re-emitting the scanned lines of text without carriage returns whose last line is unterminated gives that text plus one line feed. |
| Text.Base | loggit.go:384 | The file part of a path holds no '/'. It is a suffix of the path and is either the whole path or comes right after a '/'. |
| Collector.LogLine | loggit.go:275-284 | A subject and body pair gives an entry exactly when the untrimmed body starts with the trailer. The entry is the subject when the trimmed rest is the sentinel, and the trimmed rest when it is not. |
| Collector.TrailerIndices | loggit.go:274-277 | The positions of the bodies that carry the trailer: every such position and only those, in increasing order, and no more of them than bodies. |
| Collector.LogEntries | loggit.go:272-287 | There is one entry per trailer-carrying body, in body order. The k-th entry is the one its body and same-position subject give. |
| Collector.EntriesAreLines | loggit.go:277-283 | Entries taken from single-line subjects and bodies are single lines. |
| Collector.CollectLogMsgs | loggit.go:258-288 | Collection never gives the no-version outcome. A non-zero exit of either the subjects or the bodies query is fatal. Every entry it returns is a single line. |
| Collector.CollectedEntries | loggit.go:266-287 | Equal subject and body counts give the paired entries of the two query outputs. Different counts are fatal with the mismatch message. |
| Collector.EmptyQueryIsFatal | loggit.go:266-270 | When both queries print nothing or only white space, the single empty subject outnumbers the zero bodies, and the collection is fatal instead of empty. |
| Changelog.VersionLogHeader | loggit.go:290-293 | The header starts with the configured header text and ends with " - " and the date. The version can be read back from between them. |
| Changelog.BulletLines | loggit.go:311-316 | There is one bullet line per entry, in order, each being "* " followed by the entry. |
| Changelog.Bullets | loggit.go:311-316 | The written bullets are the bullet lines, each followed by a line feed. |
| Changelog.TempLogContent | loggit.go:306-329 | The new changelog is made of lines each followed by a line feed: the header, the bullets, an empty line, then the lines read from the old changelog. The new section is a prefix of the new changelog. |
| Changelog.OpensWithHeader | loggit.go:306-309 | The new changelog opens with the header line. |
| Changelog.ChangelogKeepsOld | loggit.go:323-328 | Old content without carriage returns that is empty or ends in a line feed follows the new section unchanged. |
| Changelog.ChangelogTerminatesOld | loggit.go:323-328 | Old content without carriage returns whose last line has no line feed follows the new section with one line feed added. |
| Changelog.ChangelogRoundTrip | loggit.go:306-329 | When the header and every entry are single lines that do not end in a carriage return, and the old changelog holds no carriage return, reading the new changelog back line by line gives the header, the bullet lines, an empty line and the old changelog's lines. |
| Changelog.BranchLogFileName | loggit.go:384-389 | The branch file is named the branch, a dash, then the non-empty, '/'-free file part of the configured path. When that part is empty it is "CHANGELOG.md". |
| Changelog.BaseOfDefault | loggit.go:386-388 | The default changelog path is its own file part. |
| Changelog.BranchLogRoundTrip | loggit.go:395-400 | When every entry is a single line that does not end in a carriage return, the branch changelog read back line by line is exactly one bullet line per entry. |
| Loggit.CommitMsg | loggit.go:146-155 | An unopenable or unreadable message file is fatal. Otherwise the message is the file's text. |
| Loggit.PreviousContent | loggit.go:297-333 | A changelog that can neither be opened nor created is fatal, and so is an error while reading it, reported with that error's text. A missing one reads as empty, and a present one gives its content. |
| Loggit.PrepareRelease | loggit.go:349-370 | Preparing a release gives no-version exactly when the readable message lacks the bump prefix. It succeeds exactly when the message is readable, declares a version, and the previous-hash lookup, the collection and the old changelog all succeed. A prepared release carries the version the message declares. Its content is the header for that version and today, the entries collected since the previous bump commit, and the old changelog's content (empty when absent) as the scanner reads it. |
| Loggit.CreateNewVersionGitTag | loggit.go:336-346 | Tagging succeeds exactly when `git tag` prints nothing or could not be started. A non-zero exit or any output is fatal. |
| Loggit.AppendToChangelog | loggit.go:349-377 | A readable message without the bump prefix changes nothing. The changelog is replaced exactly when the release could be prepared, and then with the prepared content. Without tagging, a replacement ends the run successfully. With tagging, the tag names the declared version and the run ends as `git tag` does. A changelog that cannot be created or read is never replaced. |
| Loggit.NoVersionChangesNothing | loggit.go:350-354 | A message that is not a bump commit leaves the changelog and the tags untouched, whatever the pattern, the files and the repository. |
| Loggit.AppendStartsWithHeader | loggit.go:355-370 | A replaced changelog opens with the header line of the declared version, and the tag created, if any, names that version. |
| Loggit.AppendedChangelog | loggit.go:349-370 | With the default pattern, a replaced changelog is the new section for the message's leftmost-longest version and the entries collected since the previous bump commit, followed by the old content unchanged. This holds when the old content is empty or ends in a line feed and holds no carriage return. |
| Loggit.TagFailureKeepsChangelog | loggit.go:368-376 | When `git tag` exits non-zero the run is fatal, but the changelog has already been replaced. |
| Loggit.WriteBranchChangelog | loggit.go:379-403 | Branch mode never gives no-version. It succeeds exactly when the branch lookup, the first-commit lookup and the collection all succeed. The file is then named after the branch and holds the bullets of the collected entries: one bullet line, followed by a line feed, per single-line entry. |
| Loggit.BranchLogNamed | loggit.go:379-392 | The branch file is named after the trimmed current branch. Its content is the bullets of the entries collected from the commits after the non-empty last line of the branch log output. With such a line and a successful collection, the branch run succeeds. |

## Left out

- Running `git` is a function parameter. The repository-root lookup is not part of this model.
- File I/O is not modelled:
  - the changelog's open-or-create and the commit message file are inputs;
  - the temporary file, with its random name, `Sync` and `os.Rename`, is not modelled. The rename's atomicity is a property of the operating system. Failures around the temporary file are left out. A failed create is fatal before anything is written. A failed write or rename is fatal before the changelog is replaced, but the temporary file stays behind, and an absent changelog has already been created empty. The temporary file is created before the changelog is opened, so it also stays behind when the changelog can be neither opened nor created, or cannot be read.
  - a read error on the old changelog is an input (`ReadFailure`). The lines read before the error are not modelled, because the run then ends before any change.
- Creating the branch changelog file is not modelled. A failure there is fatal before any line is printed. A failed write is left out as well. It is fatal after the earlier lines were printed and written, so a partial branch changelog stays behind.
- The lines `WriteBranchChangelog` prints to standard output are its file content.
- `bufio.Scanner`'s 64 KiB line limit is left out: lines are unbounded.
- `time.Now()` is an input: the date string, already formatted.
- Configuration loading is left out: the JSON file, the search for it (`openDefaultConfigFile`, `getConfigDir`), and the flag parsing and `os.Exit` in `parseCliArgsAndRun`. The configuration is an input to `setNilConfigFields`.
- The general Go regexp engine is left out.
  - A configured pattern is an abstract `find` function.
  - `regexp.MustCompile` panicking on a bad pattern is not modelled.
  - Only the default pattern has a concrete matcher.
- A `char` stands for one byte, and white space is the ASCII set. Go's `TrimSpace` also removes Unicode spaces such as U+0085 and U+00A0.
- `filepath.Split` is modelled with '/' as the only separator. Windows separators are left out.
- Loggit.AppendedChangelog: does not describe old content that holds a carriage return or lacks a final line feed. The scanner then normalises the old lines, as `Changelog.ChangelogTerminatesOld` and `Changelog.ChangelogRoundTrip` state.

=== FILE: changelog.dfy ===
/** The text the tool writes: the new changelog section put in front of the
    previous changelog (`getVersionLogHeader`, `writeTempLogFile`), and the branch
    changelog with its file name (`WriteBranchChangelog`). */
module Changelog {
  import opened Text
  import opened Configuration

  /** `getVersionLogHeader`, with today's date (formatted `2006-01-02`) given. */
  function VersionLogHeader(cfg: Config, version: string, today: string): (r: string)
    ensures HasPrefix(r, cfg.versionHeader) && HasSuffix(r, " - " + today)
    ensures |r| == |cfg.versionHeader| + |version| + 3 + |today|
    ensures r[|cfg.versionHeader|..|r| - |today| - 3] == version
  {
    cfg.versionHeader + version + " - " + today
  }

  /** The lines of the entries as written: each behind a "* " bullet. */
  function BulletLines(entries: seq<string>): (r: seq<string>)
    ensures |r| == |entries|
    ensures forall i | 0 <= i < |r| :: r[i] == "* " + entries[i]
  {
    if |entries| == 0 then [] else ["* " + entries[0]] + BulletLines(entries[1..])
  }

  /** The bullets as written: the bullet lines, each followed by its own
      line feed. */
  function Bullets(entries: seq<string>): (r: string)
    ensures r == Unlines(BulletLines(entries))
  {
    if |entries| == 0 then []
    else
      assert BulletLines(entries)[1..] == BulletLines(entries[1..]);
      ("* " + entries[0]) + "\n" + Bullets(entries[1..])
  }

  /** The new section: header, bullets and the empty line after them. */
  function NewSection(header: string, entries: seq<string>): string {
    header + "\n" + Bullets(entries) + "\n"
  }

  /** What `writeTempLogFile` writes: the new section, then each line a
      scanner reads from the previous changelog followed by a line feed. The
      result is a sequence of terminated lines: the header, the bullets, an
      empty line and the previous changelog's lines. */
  function TempLogContent(header: string, entries: seq<string>, previous: string): (r: string)
    ensures r == Unlines([header] + BulletLines(entries) + [[]] + ScanLines(previous))
    ensures HasPrefix(r, NewSection(header, entries))
  {
    SectionLines(header, entries, ScanLines(previous));
    NewSection(header, entries) + Unlines(ScanLines(previous))
  }

  /** The new section followed by terminated lines is itself a run of
      terminated lines. */
  lemma SectionLines(header: string, entries: seq<string>, rest: seq<string>)
    ensures NewSection(header, entries) + Unlines(rest)
         == Unlines([header] + BulletLines(entries) + [[]] + rest)
  {
    var bl := BulletLines(entries);
    UnlinesAppend([header] + bl + [[]], rest);
    UnlinesAppend([header] + bl, [[]]);
    UnlinesAppend([header], bl);
    assert Unlines([header]) == header + "\n";
    assert Unlines([[]]) == "\n";
  }

  /** The written changelog opens with the header line. */
  lemma OpensWithHeader(header: string, entries: seq<string>, previous: string)
    ensures HasPrefix(TempLogContent(header, entries, previous), header + "\n")
  {
    var line := header + "\n";
    var section := NewSection(header, entries);
    assert section == line + (Bullets(entries) + "\n");
    assert HasPrefix(TempLogContent(header, entries, previous), section);
    assert section[..|line|] == line;
  }

  /** Old content without carriage returns that is empty or ends in a line
      feed follows the new section unchanged. */
  lemma ChangelogKeepsOld(header: string, entries: seq<string>, previous: string)
    requires '\r' !in previous
    requires previous == [] || previous[|previous| - 1] == '\n'
    ensures TempLogContent(header, entries, previous) == NewSection(header, entries) + previous
  {
    UnlinesScan(previous);
  }

  /** Old content without carriage returns whose last line has no line feed
      gets one: the rest of the changelog is the previous content plus "\n". */
  lemma ChangelogTerminatesOld(header: string, entries: seq<string>, previous: string)
    requires '\r' !in previous
    requires previous != [] && previous[|previous| - 1] != '\n'
    ensures TempLogContent(header, entries, previous) == NewSection(header, entries) + previous + "\n"
  {
    UnlinesScanAddsLineFeed(previous);
  }

  /** Reading the written changelog back line by line gives the header, the
      bullets, the empty line and then the previous changelog's lines, provided
      header and entries are single lines that do not end in a carriage
      return and the previous changelog holds none. */
  lemma ChangelogRoundTrip(header: string, entries: seq<string>, previous: string)
    requires PlainLines([header]) && PlainLines(entries)
    requires '\r' !in previous
    ensures ScanLines(TempLogContent(header, entries, previous))
         == [header] + BulletLines(entries) + [[]] + ScanLines(previous)
  {
    PlainBullets(entries);
    PlainScanned(previous);
    assert PlainLines([[]]);
    PlainAppend([header], BulletLines(entries));
    PlainAppend([header] + BulletLines(entries), [[]]);
    PlainAppend([header] + BulletLines(entries) + [[]], ScanLines(previous));
    ScanUnlines([header] + BulletLines(entries) + [[]] + ScanLines(previous));
  }

  /** A bullet in front of a plain line leaves it plain. */
  lemma PlainBullets(entries: seq<string>)
    requires PlainLines(entries)
    ensures PlainLines(BulletLines(entries))
  {
    var ls := BulletLines(entries);
    forall i | 0 <= i < |ls| ensures '\n' !in ls[i] && !EndsInCR(ls[i]) {
      assert ls[i] == "* " + entries[i];
      assert entries[i] == [] || ls[i][|ls[i]| - 1] == entries[i][|entries[i]| - 1];
    }
  }

  // ---------------------------------------------------------------------
  // Branch changelog
  // ---------------------------------------------------------------------

  /** The file `WriteBranchChangelog` creates: the branch name, a dash, and
      the file part of the configured changelog path, or of the default path
      when the configured one has no file part. */
  function BranchLogFileName(cfg: Config, branch: string): (r: string)
    ensures HasPrefix(r, branch + "-")
    ensures var name := r[|branch| + 1..];
            && name != [] && '/' !in name
            && (if Base(cfg.changelogRelativePath) != []
                then HasSuffix(cfg.changelogRelativePath, name)
                     && (name == cfg.changelogRelativePath
                         || cfg.changelogRelativePath[|cfg.changelogRelativePath| - |name| - 1] == '/')
                else name == DefaultChangelogRelativePath)
  {
    var logFileName := Base(cfg.changelogRelativePath);
    var name := if |logFileName| == 0 then Base(DefaultChangelogRelativePath) else logFileName;
    BaseOfDefault();
    assert (branch + "-" + name)[|branch| + 1..] == name;
    branch + "-" + name
  }

  /** The default changelog path is a bare file name. */
  lemma BaseOfDefault()
    ensures Base(DefaultChangelogRelativePath) == DefaultChangelogRelativePath
  {
    var r := Base(DefaultChangelogRelativePath);
    assert '/' !in DefaultChangelogRelativePath;
  }

  /** The branch changelog holds one bullet line per entry and nothing else;
      the same text goes to standard output. */
  lemma BranchLogRoundTrip(entries: seq<string>)
    requires PlainLines(entries)
    ensures ScanLines(Bullets(entries)) == BulletLines(entries)
  {
    PlainBullets(entries);
    ScanUnlines(BulletLines(entries));
  }
}

=== FILE: collector.dfy ===
/** Collecting the changelog entries of a range of commits
    (`collectLogMsgs` in loggit.go). Subjects and bodies are queried
    separately, paired by position, and every body that starts with the
    trailer marker gives one entry. */
module Collector {
  import opened Outcomes
  import opened Text
  import opened Configuration
  import opened Git

  const CountMismatch := "Different number of commit bodies and subjects"

  /** The entry a subject and body pair gives, if the body starts with the
      trailer marker: the rest of the body without surrounding white space,
      or the subject when that rest is the "use the subject" sentinel. The
      body itself is not trimmed before the marker is looked for. */
  function LogLine(cfg: Config, subject: string, body: string): (r: Option<string>)
    ensures r.Some? <==> HasPrefix(body, cfg.logGitTrailer)
    ensures r.Some? && TrimSpace(body[|cfg.logGitTrailer|..]) == cfg.useCommitTitleMsg ==>
              r.value == subject
    ensures r.Some? && r.value != subject ==>
              r.value == TrimSpace(body[|cfg.logGitTrailer|..]) && r.value != cfg.useCommitTitleMsg
    ensures r.Some? && TrimSpace(body[|cfg.logGitTrailer|..]) != cfg.useCommitTitleMsg ==>
              r.value == TrimSpace(body[|cfg.logGitTrailer|..])
  {
    if HasPrefix(body, cfg.logGitTrailer) then
      var logMsg := TrimSpace(body[|cfg.logGitTrailer|..]);
      Some(if logMsg == cfg.useCommitTitleMsg then subject else logMsg)
    else
      None
  }

  /** The positions of the bodies that start with `trailer`, in increasing order. */
  function TrailerIndices(bodies: seq<string>, trailer: string): (idx: seq<nat>)
    ensures forall k | 0 <= k < |idx| :: idx[k] < |bodies| && HasPrefix(bodies[idx[k]], trailer)
    ensures forall k, l | 0 <= k < l < |idx| :: idx[k] < idx[l]
    ensures forall i | 0 <= i < |bodies| && HasPrefix(bodies[i], trailer) :: i in idx
    ensures |idx| <= |bodies|
  {
    if |bodies| == 0 then []
    else
      var n := |bodies| - 1;
      var front := TrailerIndices(bodies[..n], trailer);
      assert forall i | 0 <= i < n :: bodies[..n][i] == bodies[i];
      front + (if HasPrefix(bodies[n], trailer) then [n] else [])
  }

  /** The entries of aligned subject and body lists, in body order. */
  function LogEntries(cfg: Config, subjects: seq<string>, bodies: seq<string>): (r: seq<string>)
    requires |subjects| == |bodies|
    ensures |r| == |TrailerIndices(bodies, cfg.logGitTrailer)|
    ensures forall k | 0 <= k < |r| ::
              var i := TrailerIndices(bodies, cfg.logGitTrailer)[k];
              LogLine(cfg, subjects[i], bodies[i]) == Some(r[k])
  {
    if |bodies| == 0 then []
    else
      var n := |bodies| - 1;
      var front := LogEntries(cfg, subjects[..n], bodies[..n]);
      assert forall i | 0 <= i < n :: bodies[..n][i] == bodies[i] && subjects[..n][i] == subjects[i];
      match LogLine(cfg, subjects[n], bodies[n])
      case None => front
      case Some(line) => front + [line]
  }

  /** Every entry is a subject or the trimmed rest of a body line, so none
      holds a line feed when the subjects and bodies hold none. */
  lemma EntriesAreLines(cfg: Config, subjects: seq<string>, bodies: seq<string>)
    requires |subjects| == |bodies|
    requires NoLineFeeds(subjects) && NoLineFeeds(bodies)
    ensures NoLineFeeds(LogEntries(cfg, subjects, bodies))
  {
    var r := LogEntries(cfg, subjects, bodies);
    var idx := TrailerIndices(bodies, cfg.logGitTrailer);
    forall k | 0 <= k < |r| ensures '\n' !in r[k] {
      var i := idx[k];
      var body := bodies[i];
      if r[k] != subjects[i] {
        var rest := body[|cfg.logGitTrailer|..];
        assert '\n' !in rest by {
          forall c | 0 <= c < |rest| ensures rest[c] != '\n' {
            assert rest[c] == body[c + |cfg.logGitTrailer|];
          }
        }
        TrimSpaceKeepsOut(rest, '\n');
      }
    }
  }

  /** The grep filter both queries use: commits whose message mentions the
      trailer marker. */
  function GrepArg(cfg: Config): string {
    "--grep=" + cfg.logGitTrailer
  }

  /** `collectLogMsgs`: query the subjects and the bodies of the commits after
      `prevCommitHash`, insist that there are as many of each, and collect the
      entries. */
  function CollectLogMsgs(cfg: Config, prevCommitHash: string, git: GitCmd): (r: Outcome<seq<string>>)
    ensures !r.NoVersion?
    ensures r.Ok? ==> NoLineFeeds(r.value)
    ensures git(SubjectArgs(CommitsInterval(prevCommitHash), GrepArg(cfg))).ExitFailure? ==> r.Fatal?
    ensures git(BodyArgs(CommitsInterval(prevCommitHash), GrepArg(cfg))).ExitFailure? ==> r.Fatal?
  {
    var commitsInterval := CommitsInterval(prevCommitHash);
    var outLineSubjects :- GetGitCommitSubjects(commitsInterval, GrepArg(cfg), git);
    var outLineBodies :- GetGitCommitBodies(commitsInterval, GrepArg(cfg), git);
    if |outLineBodies| != |outLineSubjects| then Fatal(CountMismatch)
    else
      EntriesAreLines(cfg, outLineSubjects, outLineBodies);
      Ok(LogEntries(cfg, outLineSubjects, outLineBodies))
  }

  /** When no commit in the range mentions the trailer, both queries print
      nothing (or only white space); the single empty subject line then
      outnumbers the zero body lines and the collection is fatal instead of
      empty. */
  lemma EmptyQueryIsFatal(cfg: Config, prevCommitHash: string, git: GitCmd)
    requires var interval := CommitsInterval(prevCommitHash);
             && QuietRun(git(SubjectArgs(interval, GrepArg(cfg))))
             && QuietRun(git(BodyArgs(interval, GrepArg(cfg))))
    ensures CollectLogMsgs(cfg, prevCommitHash, git) == Fatal(CountMismatch)
  {
    var interval := CommitsInterval(prevCommitHash);
    var subjectRun := git(SubjectArgs(interval, GrepArg(cfg)));
    var bodyRun := git(BodyArgs(interval, GrepArg(cfg)));
    var subjectOut := if subjectRun.Ran? then subjectRun.stdout else [];
    var bodyOut := if bodyRun.Ran? then bodyRun.stdout else [];
    assert GetGitCommitSubjects(interval, GrepArg(cfg), git) == Ok(SubjectLines(subjectOut));
    assert GetGitCommitBodies(interval, GrepArg(cfg), git) == Ok(BodyLines(bodyOut));
    assert |SubjectLines(subjectOut)| == 1;
    assert |BodyLines(bodyOut)| == 0;
  }

  /** With as many subjects as bodies, the entries are the ones `LogEntries`
      pairs up from the two query outputs. */
  lemma CollectedEntries(cfg: Config, prevCommitHash: string, git: GitCmd, subjectOut: string, bodyOut: string)
    requires var interval := CommitsInterval(prevCommitHash);
             && git(SubjectArgs(interval, GrepArg(cfg))) == Ran(subjectOut)
             && git(BodyArgs(interval, GrepArg(cfg))) == Ran(bodyOut)
    ensures |BodyLines(bodyOut)| == |SubjectLines(subjectOut)| ==>
              CollectLogMsgs(cfg, prevCommitHash, git)
                == Ok(LogEntries(cfg, SubjectLines(subjectOut), BodyLines(bodyOut)))
    ensures |BodyLines(bodyOut)| != |SubjectLines(subjectOut)| ==>
              CollectLogMsgs(cfg, prevCommitHash, git) == Fatal(CountMismatch)
  {
  }
}

=== FILE: configuration.dfy ===
/** The tool's configuration and the filling-in of its defaults
    (`setNilConfigFields` in loggit.go). */
module Configuration {
  import opened Outcomes

  const DefaultBumpVersionMsg := "Bump version"
  const DefaultVersionRegexpStr := "\\d+\\.\\d+\\.\\d+"
  const DefaultLogGitTrailer := "log:"
  const DefaultUseCommitTitleMsg := "%s"
  const DefaultChangelogRelativePath := "CHANGELOG.md"
  const DefaultVersionHeader := "# Version "
  const DefaultMasterBranchName := "master"
  const DefaultAlsoTag := true

  /** A configuration as read from the JSON file. An empty string is a field
      the file did not set; `alsoTag` is `None` when the file left it out (a
      nil `*bool` in the program). */
  datatype Config = Config(
    bumpVersionMsg: string,
    versionRegexpStr: string,
    logGitTrailer: string,
    useCommitTitleMsg: string,
    changelogRelativePath: string,
    versionHeader: string,
    masterBranchName: string,
    alsoTag: Option<bool>)

  /** Every field has an effective value. */
  predicate Complete(c: Config) {
    && c.bumpVersionMsg != []
    && c.versionRegexpStr != []
    && c.logGitTrailer != []
    && c.useCommitTitleMsg != []
    && c.changelogRelativePath != []
    && c.versionHeader != []
    && c.masterBranchName != []
    && c.alsoTag.Some?
  }

  /** Every field `c` sets has the same value in `d`. */
  predicate Keeps(c: Config, d: Config) {
    && (c.bumpVersionMsg != [] ==> d.bumpVersionMsg == c.bumpVersionMsg)
    && (c.versionRegexpStr != [] ==> d.versionRegexpStr == c.versionRegexpStr)
    && (c.logGitTrailer != [] ==> d.logGitTrailer == c.logGitTrailer)
    && (c.useCommitTitleMsg != [] ==> d.useCommitTitleMsg == c.useCommitTitleMsg)
    && (c.changelogRelativePath != [] ==> d.changelogRelativePath == c.changelogRelativePath)
    && (c.versionHeader != [] ==> d.versionHeader == c.versionHeader)
    && (c.masterBranchName != [] ==> d.masterBranchName == c.masterBranchName)
    && (c.alsoTag.Some? ==> d.alsoTag == c.alsoTag)
  }

  /** Every field `c` leaves unset has its default value in `d`. */
  predicate DefaultsUnset(c: Config, d: Config) {
    && (c.bumpVersionMsg == [] ==> d.bumpVersionMsg == DefaultBumpVersionMsg)
    && (c.versionRegexpStr == [] ==> d.versionRegexpStr == DefaultVersionRegexpStr)
    && (c.logGitTrailer == [] ==> d.logGitTrailer == DefaultLogGitTrailer)
    && (c.useCommitTitleMsg == [] ==> d.useCommitTitleMsg == DefaultUseCommitTitleMsg)
    && (c.changelogRelativePath == [] ==> d.changelogRelativePath == DefaultChangelogRelativePath)
    && (c.versionHeader == [] ==> d.versionHeader == DefaultVersionHeader)
    && (c.masterBranchName == [] ==> d.masterBranchName == DefaultMasterBranchName)
    && (c.alsoTag.None? ==> d.alsoTag == Some(DefaultAlsoTag))
  }

  function Fill(given: string, default: string): string {
    if given == [] then default else given
  }

  /** `setNilConfigFields`: each unset field takes its default. */
  function SetNilConfigFields(c: Config): (r: Config)
    ensures Complete(r)
    ensures Keeps(c, r)
    ensures DefaultsUnset(c, r)
  {
    Config(
      Fill(c.bumpVersionMsg, DefaultBumpVersionMsg),
      Fill(c.versionRegexpStr, DefaultVersionRegexpStr),
      Fill(c.logGitTrailer, DefaultLogGitTrailer),
      Fill(c.useCommitTitleMsg, DefaultUseCommitTitleMsg),
      Fill(c.changelogRelativePath, DefaultChangelogRelativePath),
      Fill(c.versionHeader, DefaultVersionHeader),
      Fill(c.masterBranchName, DefaultMasterBranchName),
      if c.alsoTag.None? then Some(DefaultAlsoTag) else c.alsoTag)
  }

  /** The configuration with no field set, as when no file is found. */
  const Unset := Config([], [], [], [], [], [], [], None)

  /** Filling a configuration leaves it alone exactly when it is already
      complete; in particular filling twice is filling once. */
  lemma FillFixpoint(c: Config)
    ensures SetNilConfigFields(c) == c <==> Complete(c)
    ensures SetNilConfigFields(SetNilConfigFields(c)) == SetNilConfigFields(c)
  {
    if Complete(c) {
      var r := SetNilConfigFields(c);
      assert Keeps(c, r);
    }
  }

  /** An empty configuration takes every default. */
  lemma UnsetTakesDefaults()
    ensures SetNilConfigFields(Unset) == Config(
      DefaultBumpVersionMsg, DefaultVersionRegexpStr, DefaultLogGitTrailer,
      DefaultUseCommitTitleMsg, DefaultChangelogRelativePath, DefaultVersionHeader,
      DefaultMasterBranchName, Some(DefaultAlsoTag))
  {
  }
}

=== FILE: git.dfy ===
/** The `git` queries the tool runs and the reading of their output: the
    previous bump commit (`getPrevBumpCommitHash`), the current branch and
    its first commit (`getCurrentGitBranch`, `getFirstBranchCommitHash`),
    the range to scan, and the subject and body lines of the commits in it
    (`getGitCommitSubjects`, `getGitCommitBodies`). */
module Git {
  import opened Outcomes
  import opened Text
  import opened Configuration

  /** What running `git` gave: its standard output, a non-zero exit with its
      standard error, or a failure to run at all. */
  datatype GitRun = Ran(stdout: string) | ExitFailure(stderr: string) | StartFailure

  /** The `git` collaborator: the arguments after `git`, and what running
      `git` with them gives. */
  type GitCmd = seq<string> -> GitRun

  /** `cmd.Output()` as the program reads it: only a non-zero exit is fatal;
      a command that could not be started leaves empty output. */
  function Stdout(run: GitRun, failure: string): (r: Outcome<string>)
    ensures r.Fatal? <==> run.ExitFailure?
    ensures !r.NoVersion?
    ensures run.Ran? ==> r == Ok(run.stdout)
    ensures run.StartFailure? ==> r == Ok([])
  {
    match run
    case Ran(out) => Ok(out)
    case ExitFailure(err) => Fatal(failure + ": " + err + "\n")
    case StartFailure => Ok([])
  }

  const PrevHashFailure := "Could not read the previous bump-commit hash"
  const BranchFailure := "Could not get the current Git branch"
  const FirstHashMissing := "Could not read the first commit hash of the current branch"
  const SubjectsFailure := "Failed to collect log messages (subjects)"
  const BodiesFailure := "Failed to collect log messages (bodies)"

  // ---------------------------------------------------------------------
  // Append mode: the range since the last bump commit
  // ---------------------------------------------------------------------

  function PrevBumpArgs(cfg: Config): seq<string> {
    ["log", "--grep=" + cfg.bumpVersionMsg, "-n", "1", "--pretty=format:%H"]
  }

  /** The hash in the output of `git log -n 1`: its first line. */
  function PrevBumpHashFromLog(out: string): (hash: string)
    ensures '\n' !in hash
    ensures HasPrefix(out, hash)
    ensures hash == out || out[|hash|] == '\n'
  {
    FirstPiece(out);
    var outLines := Split(out);
    if |outLines| == 1 && outLines[0] == [] then [] else outLines[0]
  }

  /** `getPrevBumpCommitHash`. */
  function GetPrevBumpCommitHash(cfg: Config, git: GitCmd): (r: Outcome<string>)
    ensures r.Fatal? <==> git(PrevBumpArgs(cfg)).ExitFailure?
    ensures !r.NoVersion?
    ensures r.Ok? ==> '\n' !in r.value
    ensures r.Ok? && git(PrevBumpArgs(cfg)).Ran? ==> HasPrefix(git(PrevBumpArgs(cfg)).stdout, r.value)
    ensures git(PrevBumpArgs(cfg)).StartFailure? ==> r == Ok([])
    ensures git(PrevBumpArgs(cfg)).Ran? ==> r == Ok(PrevBumpHashFromLog(git(PrevBumpArgs(cfg)).stdout))
  {
    var out :- Stdout(git(PrevBumpArgs(cfg)), PrevHashFailure);
    Ok(PrevBumpHashFromLog(out))
  }

  /** The range `collectLogMsgs` scans: everything up to `HEAD`, or only the
      commits after `prevHash` when there is one. */
  function CommitsInterval(prevHash: string): (r: string)
    ensures HasSuffix(r, "HEAD")
    ensures r == "HEAD" <==> prevHash == []
    ensures prevHash != [] ==> |r| == |prevHash| + 6
    ensures prevHash != [] ==> r[..|r| - 6] == prevHash && r[|r| - 6..] == "..HEAD"
  {
    (if |prevHash| > 0 then prevHash + ".." else []) + "HEAD"
  }

  /** With no earlier bump commit the whole history is scanned; otherwise
      the range starts after the hash on the first line of the output. */
  lemma AppendModeRange(out: string)
    ensures out == [] ==> CommitsInterval(PrevBumpHashFromLog(out)) == "HEAD"
    ensures Split(out)[0] == [] ==> CommitsInterval(PrevBumpHashFromLog(out)) == "HEAD"
    ensures Split(out)[0] != [] ==>
              CommitsInterval(PrevBumpHashFromLog(out)) == Split(out)[0] + "..HEAD"
  {
    var hash := PrevBumpHashFromLog(out);
    FirstPiece(out);
    assert hash == Split(out)[0];
  }

  // ---------------------------------------------------------------------
  // Branch mode: the range since the branch's first commit
  // ---------------------------------------------------------------------

  const CurrentBranchArgs := ["branch", "--show-current"]

  /** `getCurrentGitBranch`: the output of `git branch --show-current`
      without surrounding white space. */
  function GetCurrentGitBranch(git: GitCmd): (r: Outcome<string>)
    ensures r.Fatal? <==> git(CurrentBranchArgs).ExitFailure?
    ensures !r.NoVersion?
    ensures r.Ok? ==> r.value == [] || (!IsSpace(r.value[0]) && !IsSpace(r.value[|r.value| - 1]))
    ensures r.Ok? && git(CurrentBranchArgs).Ran? ==> (r.value == [] <==> AllSpace(git(CurrentBranchArgs).stdout))
    ensures git(CurrentBranchArgs).Ran? ==> r == Ok(TrimSpace(git(CurrentBranchArgs).stdout))
  {
    var out :- Stdout(git(CurrentBranchArgs), BranchFailure);
    Ok(TrimSpace(out))
  }

  function FirstBranchArgs(cfg: Config, branchName: string): seq<string> {
    ["log", cfg.masterBranchName + "~.." + branchName, "--pretty=format:%H"]
  }

  /** The hash on the last line of the branch log output; an empty last line
      (no output, or output ending in a line feed) is fatal. */
  function FirstBranchHashFromLog(out: string): (r: Outcome<string>)
    ensures r.Fatal? <==> out == [] || out[|out| - 1] == '\n'
    ensures !r.NoVersion?
    ensures r.Ok? ==> && r.value != [] && '\n' !in r.value
                      && HasSuffix(out, r.value)
                      && (r.value == out || out[|out| - |r.value| - 1] == '\n')
  {
    var outLines := Split(out);
    var nLines := |outLines|;
    LastPieceIsTail(out);
    if nLines == 0 || outLines[nLines - 1] == [] then Fatal(FirstHashMissing)
    else
      LastPiece(out);
      assert '\n' !in outLines[nLines - 1];
      Ok(outLines[nLines - 1])
  }

  /** `getFirstBranchCommitHash`. A failing `git log` reports the same
      message as the previous bump-commit lookup, as the program does. */
  function GetFirstBranchCommitHash(cfg: Config, branchName: string, git: GitCmd): (r: Outcome<string>)
    ensures !r.NoVersion?
    ensures r.Ok? ==> && git(FirstBranchArgs(cfg, branchName)).Ran?
                      && r.value != [] && '\n' !in r.value
                      && HasSuffix(git(FirstBranchArgs(cfg, branchName)).stdout, r.value)
    ensures git(FirstBranchArgs(cfg, branchName)).StartFailure? ==> r == Fatal(FirstHashMissing)
    ensures git(FirstBranchArgs(cfg, branchName)).Ran? ==>
              r == FirstBranchHashFromLog(git(FirstBranchArgs(cfg, branchName)).stdout)
  {
    var out :- Stdout(git(FirstBranchArgs(cfg, branchName)), PrevHashFailure);
    FirstBranchHashFromLog(out)
  }

  // ---------------------------------------------------------------------
  // Subjects and bodies of the commits in a range
  // ---------------------------------------------------------------------

  function SubjectArgs(commitsInterval: string, grepArg: string): seq<string> {
    ["log", commitsInterval, grepArg, "--pretty=format:%s"]
  }

  function BodyArgs(commitsInterval: string, grepArg: string): seq<string> {
    ["log", commitsInterval, grepArg, "--pretty=format:%b"]
  }

  /** The subject lines: the lines of the trimmed output. There is always at
      least one; an output of white space only gives the single empty line. */
  function SubjectLines(out: string): (r: seq<string>)
    ensures |r| >= 1 && NoLineFeeds(r)
    ensures Join(r) == TrimSpace(out)
    ensures r == [[]] <==> AllSpace(out)
  {
    Split(TrimSpace(out))
  }

  /** The body lines: the non-empty lines of the trimmed output, in order.
      There are none exactly when the output is white space only. */
  function BodyLines(out: string): (r: seq<string>)
    ensures NoLineFeeds(r)
    ensures forall i | 0 <= i < |r| :: r[i] != []
    ensures forall x :: x in r <==> x in Split(TrimSpace(out)) && x != []
    ensures r == [] <==> AllSpace(out)
    ensures r == DropEmpty(SubjectLines(out))
  {
    var lines := Split(TrimSpace(out));
    var r := DropEmpty(lines);
    assert NoLineFeeds(r) by {
      forall i | 0 <= i < |r| ensures '\n' !in r[i] {
        assert r[i] in lines;
      }
    }
    assert r == [] <==> AllSpace(out) by {
      var trimmed := TrimSpace(out);
      FirstPiece(trimmed);
      if trimmed != [] {
        assert lines[0] != [];
        assert lines[0] in r;
      } else {
        assert lines == [[]];
      }
    }
    r
  }

  /** A run whose output holds nothing but white space, or that could not
      be started and so left no output. */
  predicate QuietRun(run: GitRun) {
    run.StartFailure? || (run.Ran? && AllSpace(run.stdout))
  }

  /** `getGitCommitSubjects`. */
  function GetGitCommitSubjects(commitsInterval: string, grepArg: string, git: GitCmd)
    : (r: Outcome<seq<string>>)
    ensures r.Fatal? <==> git(SubjectArgs(commitsInterval, grepArg)).ExitFailure?
    ensures !r.NoVersion?
    ensures r.Ok? ==> |r.value| >= 1 && NoLineFeeds(r.value)
    ensures git(SubjectArgs(commitsInterval, grepArg)).StartFailure? ==> r == Ok([[]])
    ensures git(SubjectArgs(commitsInterval, grepArg)).Ran? ==>
              r == Ok(SubjectLines(git(SubjectArgs(commitsInterval, grepArg)).stdout))
  {
    var out :- Stdout(git(SubjectArgs(commitsInterval, grepArg)), SubjectsFailure);
    Ok(SubjectLines(out))
  }

  /** `getGitCommitBodies`. */
  function GetGitCommitBodies(commitsInterval: string, grepArg: string, git: GitCmd)
    : (r: Outcome<seq<string>>)
    ensures r.Fatal? <==> git(BodyArgs(commitsInterval, grepArg)).ExitFailure?
    ensures !r.NoVersion?
    ensures r.Ok? ==> NoLineFeeds(r.value) && forall i | 0 <= i < |r.value| :: r.value[i] != []
    ensures git(BodyArgs(commitsInterval, grepArg)).StartFailure? ==> r == Ok([])
    ensures git(BodyArgs(commitsInterval, grepArg)).Ran? ==>
              r == Ok(BodyLines(git(BodyArgs(commitsInterval, grepArg)).stdout))
  {
    var out :- Stdout(git(BodyArgs(commitsInterval, grepArg)), BodiesFailure);
    Ok(BodyLines(out))
  }
}

=== FILE: loggit.dfy ===
/** The two runs of the tool (`AppendToChangelog` and `WriteBranchChangelog`
    in loggit.go) with files, clock and `git` given as values. */
module Loggit {
  import opened Outcomes
  import opened Text
  import opened Configuration
  import opened Version
  import opened Git
  import opened Collector
  import opened Changelog

  const CommitMsgUnopenable := "Could not open the commit message file"
  const CommitMsgUnreadable := "Could not read the commit message"
  const ChangelogUnavailable := "Could not open nor create the changelog file"
  const TagFailure := "Could not create a new tag"

  /** The commit message file: its text, a file that cannot be opened, or
      one that opens but cannot be read. */
  datatype CommitMsgFile = Readable(text: string) | Unopenable | Unreadable

  /** The changelog file before an append run: its content, absent (it is
      then created empty), neither readable nor creatable, or one whose
      reading stops with the error `err`. */
  datatype ChangelogFile = Present(content: string) | Absent | Uncreatable | ReadFailure(err: string)

  /** The version an append run declares and the changelog it writes. */
  datatype Release = Release(version: string, content: string)

  /** What an append run leaves behind: the changelog's new content if the
      file was replaced, the tag it asked `git` to create, and how it ended. */
  datatype AppendRun = AppendRun(changelog: Option<string>, tag: Option<string>, status: Outcome<()>)

  function CommitMsg(file: CommitMsgFile): (r: Outcome<string>)
    ensures r.Fatal? <==> !file.Readable?
    ensures r.Ok? ==> r.value == file.text
    ensures !r.NoVersion?
  {
    match file
    case Readable(text) => Ok(text)
    case Unopenable => Fatal(CommitMsgUnopenable)
    case Unreadable => Fatal(CommitMsgUnreadable)
  }

  function PreviousContent(file: ChangelogFile): (r: Outcome<string>)
    ensures r.Fatal? <==> file.Uncreatable? || file.ReadFailure?
    ensures !r.NoVersion?
    ensures file.Present? ==> r == Ok(file.content)
    ensures file.Absent? ==> r == Ok([])
    ensures file.ReadFailure? ==> r == Fatal(file.err)
  {
    match file
    case Present(content) => Ok(content)
    case Absent => Ok([])
    case Uncreatable => Fatal(ChangelogUnavailable)
    case ReadFailure(err) => Fatal(err)
  }

  /** Everything an append run does before the changelog is replaced: read
      the version, find the range, collect the entries and build the file. */
  function PrepareRelease(cfg: Config, commitMsg: CommitMsgFile, today: string,
                          find: string -> string, file: ChangelogFile, git: GitCmd)
    : (r: Outcome<Release>)
    ensures r.NoVersion? <==> commitMsg.Readable? && !HasPrefix(commitMsg.text, cfg.bumpVersionMsg)
    ensures r.Ok? ==> commitMsg.Readable? && GetNewVersion(cfg, commitMsg.text, find) == Ok(r.value.version)
    ensures r.Ok? <==> && commitMsg.Readable?
                       && GetNewVersion(cfg, commitMsg.text, find).Ok?
                       && GetPrevBumpCommitHash(cfg, git).Ok?
                       && CollectLogMsgs(cfg, GetPrevBumpCommitHash(cfg, git).value, git).Ok?
                       && PreviousContent(file).Ok?
    ensures r.Ok? ==> r.value.content
                      == TempLogContent(VersionLogHeader(cfg, r.value.version, today),
                                        CollectLogMsgs(cfg, GetPrevBumpCommitHash(cfg, git).value, git).value,
                                        PreviousContent(file).value)
  {
    var msg :- CommitMsg(commitMsg);
    var newVersion :- GetNewVersion(cfg, msg, find);
    var header := VersionLogHeader(cfg, newVersion, today);
    var prevHash :- GetPrevBumpCommitHash(cfg, git);
    var logMsgs :- CollectLogMsgs(cfg, prevHash, git);
    var previous :- PreviousContent(file);
    Ok(Release(newVersion, TempLogContent(header, logMsgs, previous)))
  }

  function TagArgs(newVersion: string): seq<string> {
    ["tag", newVersion]
  }

  /** `CreateNewVersionGitTag`: a non-zero exit or any output is fatal. */
  function CreateNewVersionGitTag(newVersion: string, git: GitCmd): (r: Outcome<()>)
    ensures !r.NoVersion?
    ensures r.Ok? <==> git(TagArgs(newVersion)) in {Ran([]), StartFailure}
  {
    var out :- Stdout(git(TagArgs(newVersion)), TagFailure);
    if |out| > 0 then Fatal(out) else Ok(())
  }

  /** `AppendToChangelog`: prepare the release, replace the changelog, then
      tag the version when asked to. The changelog is replaced before the tag
      is created, so a failing tag leaves the new changelog in place. */
  function AppendToChangelog(cfg: Config, commitMsg: CommitMsgFile, alsoTag: bool, today: string,
                             find: string -> string, file: ChangelogFile, git: GitCmd)
    : (r: AppendRun)
    ensures r.status.NoVersion? <==> commitMsg.Readable? && !HasPrefix(commitMsg.text, cfg.bumpVersionMsg)
    ensures r.status.NoVersion? ==> r.changelog.None? && r.tag.None?
    ensures r.status.Ok? ==> r.changelog.Some?
    ensures r.tag.Some? <==> r.changelog.Some? && alsoTag
    ensures r.changelog.Some? <==> PrepareRelease(cfg, commitMsg, today, find, file, git).Ok?
    ensures r.changelog.Some? ==> r.changelog.value == PrepareRelease(cfg, commitMsg, today, find, file, git).value.content
    ensures r.changelog.Some? ==> file.Present? || file.Absent?
    ensures r.changelog.Some? && !alsoTag ==> r.status == Ok(())
    ensures r.tag.Some? ==> r.status == CreateNewVersionGitTag(r.tag.value, git)
    ensures r.tag.Some? ==> commitMsg.Readable? && GetNewVersion(cfg, commitMsg.text, find) == Ok(r.tag.value)
  {
    match PrepareRelease(cfg, commitMsg, today, find, file, git)
    case NoVersion => AppendRun(None, None, NoVersion)
    case Fatal(reason) => AppendRun(None, None, Fatal(reason))
    case Ok(release) =>
      if alsoTag then
        AppendRun(Some(release.content), Some(release.version),
                  CreateNewVersionGitTag(release.version, git))
      else
        AppendRun(Some(release.content), None, Ok(()))
  }

  /** With the default version pattern, a replaced changelog starts with the
      section for the leftmost version in the bump message and ends with the
      previous changelog unchanged, when that is empty or ends in a line feed
      and holds no carriage return. */
  lemma AppendedChangelog(cfg: Config, commitMsg: string, alsoTag: bool, today: string,
                          previous: string, git: GitCmd)
    requires '\r' !in previous
    requires previous == [] || previous[|previous| - 1] == '\n'
    ensures var r := AppendToChangelog(cfg, Readable(commitMsg), alsoTag, today, FindVersion,
                                       Present(previous), git);
            r.changelog.Some? ==>
              && HasPrefix(commitMsg, cfg.bumpVersionMsg)
              && !NoVersionIn(commitMsg)
              && GetPrevBumpCommitHash(cfg, git).Ok?
              && CollectLogMsgs(cfg, GetPrevBumpCommitHash(cfg, git).value, git).Ok?
              && r.changelog.value
                 == NewSection(VersionLogHeader(cfg, FindVersion(commitMsg), today),
                               CollectLogMsgs(cfg, GetPrevBumpCommitHash(cfg, git).value, git).value)
                    + previous
  {
    var r := AppendToChangelog(cfg, Readable(commitMsg), alsoTag, today, FindVersion, Present(previous), git);
    if r.changelog.Some? {
      var newVersion := FindVersion(commitMsg);
      var header := VersionLogHeader(cfg, newVersion, today);
      var prevHash := GetPrevBumpCommitHash(cfg, git).value;
      var entries := CollectLogMsgs(cfg, prevHash, git).value;
      ChangelogKeepsOld(header, entries, previous);
      assert r.changelog.value == NewSection(header, entries) + previous;
    }
  }

  /** A message that is not a bump commit changes nothing, whatever the
      pattern, the changelog and the repository. */
  lemma NoVersionChangesNothing(cfg: Config, commitMsg: string, alsoTag: bool, today: string,
                                find: string -> string, file: ChangelogFile, git: GitCmd)
    requires !HasPrefix(commitMsg, cfg.bumpVersionMsg)
    ensures AppendToChangelog(cfg, Readable(commitMsg), alsoTag, today, find, file, git)
         == AppendRun(None, None, NoVersion)
  {
  }

  /** Whatever the pattern, a replaced changelog opens with the header line
      of the version the bump message declares, and a tag, when one is
      created, names that same version. */
  lemma AppendStartsWithHeader(cfg: Config, commitMsg: CommitMsgFile, alsoTag: bool, today: string,
                               find: string -> string, file: ChangelogFile, git: GitCmd)
    ensures var r := AppendToChangelog(cfg, commitMsg, alsoTag, today, find, file, git);
            r.changelog.Some? ==>
              && commitMsg.Readable?
              && GetNewVersion(cfg, commitMsg.text, find).Ok?
              && HasPrefix(r.changelog.value,
                           VersionLogHeader(cfg, GetNewVersion(cfg, commitMsg.text, find).value, today) + "\n")
              && (alsoTag ==> r.tag == Some(GetNewVersion(cfg, commitMsg.text, find).value))
  {
    var prepared := PrepareRelease(cfg, commitMsg, today, find, file, git);
    if prepared.Ok? {
      var header := VersionLogHeader(cfg, prepared.value.version, today);
      var prevHash := GetPrevBumpCommitHash(cfg, git).value;
      var entries := CollectLogMsgs(cfg, prevHash, git).value;
      var previous := PreviousContent(file).value;
      assert prepared.value.content == TempLogContent(header, entries, previous);
      OpensWithHeader(header, entries, previous);
    }
  }

  /** The tag is created after the changelog has been replaced: when
      `git tag` fails, the run is fatal but the new changelog stays. */
  lemma TagFailureKeepsChangelog(cfg: Config, commitMsg: CommitMsgFile, today: string,
                                 find: string -> string, file: ChangelogFile, git: GitCmd)
    ensures var prepared := PrepareRelease(cfg, commitMsg, today, find, file, git);
            var r := AppendToChangelog(cfg, commitMsg, true, today, find, file, git);
            prepared.Ok? && git(TagArgs(prepared.value.version)).ExitFailure? ==>
              r.status.Fatal? && r.changelog == Some(prepared.value.content)
  {
  }

  // ---------------------------------------------------------------------
  // Branch mode
  // ---------------------------------------------------------------------

  /** The branch changelog: the file it goes to and its text, which is also
      printed to standard output. */
  datatype BranchLog = BranchLog(fileName: string, content: string)

  /** `WriteBranchChangelog`: the entries of the commits after the branch's
      first commit, one bullet line each, in a file named after the branch. */
  function WriteBranchChangelog(cfg: Config, git: GitCmd): (r: Outcome<BranchLog>)
    ensures !r.NoVersion?
    ensures var branch := GetCurrentGitBranch(git);
            var hash := if branch.Ok? then GetFirstBranchCommitHash(cfg, branch.value, git) else Fatal([]);
            var entries := if hash.Ok? then CollectLogMsgs(cfg, hash.value, git) else Fatal([]);
            && (r.Ok? <==> entries.Ok?)
            && (r.Ok? ==> r.value == BranchLog(BranchLogFileName(cfg, branch.value), Bullets(entries.value)))
  {
    var currentBranch :- GetCurrentGitBranch(git);
    var prevHash :- GetFirstBranchCommitHash(cfg, currentBranch, git);
    var logMsgs :- CollectLogMsgs(cfg, prevHash, git);
    Ok(BranchLog(BranchLogFileName(cfg, currentBranch), Bullets(logMsgs)))
  }

  /** The branch changelog is named after the trimmed current branch, and
      its entries come from the commits after the hash on the last line of
      the branch's log, which must not be empty; with such a line and a
      successful collection, the branch run succeeds. */
  lemma BranchLogNamed(cfg: Config, git: GitCmd, branchOut: string, logOut: string)
    requires git(CurrentBranchArgs) == Ran(branchOut)
    requires git(FirstBranchArgs(cfg, TrimSpace(branchOut))) == Ran(logOut)
    ensures WriteBranchChangelog(cfg, git).Ok? ==>
              && HasPrefix(WriteBranchChangelog(cfg, git).value.fileName, TrimSpace(branchOut) + "-")
              && logOut != [] && logOut[|logOut| - 1] != '\n'
              && FirstBranchHashFromLog(logOut).Ok?
              && CollectLogMsgs(cfg, FirstBranchHashFromLog(logOut).value, git).Ok?
              && WriteBranchChangelog(cfg, git).value.content
                 == Bullets(CollectLogMsgs(cfg, FirstBranchHashFromLog(logOut).value, git).value)
    ensures FirstBranchHashFromLog(logOut).Ok?
            && CollectLogMsgs(cfg, FirstBranchHashFromLog(logOut).value, git).Ok? ==>
              WriteBranchChangelog(cfg, git).Ok?
  {
    var branch := TrimSpace(branchOut);
    assert GetCurrentGitBranch(git) == Ok(branch);
    assert GetFirstBranchCommitHash(cfg, branch, git) == FirstBranchHashFromLog(logOut);
    var r := WriteBranchChangelog(cfg, git);
    if r.Ok? {
      assert r.value.fileName == BranchLogFileName(cfg, branch);
    }
  }
}

=== FILE: outcomes.dfy ===
/** The ways a step of the changelog tool can end.

    - `Ok`: the step produced its value.
    - `NoVersion`: the commit message declares no new version. The tool
      reports it and exits cleanly, so this is a recoverable outcome.
    - `Fatal`: the tool stops with a diagnostic (`log.Fatal*` in the program).

    Both failure variants can be propagated with `:-`. */
module Outcomes {

  datatype Option<+T> = None | Some(value: T)

  datatype Outcome<+T> = Ok(value: T) | NoVersion | Fatal(reason: string) {

    predicate IsFailure() {
      !Ok?
    }

    function PropagateFailure<U>(): (r: Outcome<U>)
      requires !Ok?
      ensures r.NoVersion? == NoVersion? && r.Fatal? == Fatal?
    {
      if NoVersion? then NoVersion else Fatal(reason)
    }

    function Extract(): T
      requires Ok?
    {
      value
    }
  }
}

=== FILE: text.dfy ===
/** The string operations the changelog tool borrows from Go's `strings`,
    `bufio` and `path/filepath` packages, with the meaning they have on the
    inputs the tool gives them. A `char` stands for one byte of a Go string. */
module Text {

  predicate HasPrefix(s: string, prefix: string) {
    |prefix| <= |s| && s[..|prefix|] == prefix
  }

  predicate HasSuffix(s: string, suffix: string) {
    |suffix| <= |s| && s[|s| - |suffix|..] == suffix
  }

  // ---------------------------------------------------------------------
  // strings.TrimSpace
  // ---------------------------------------------------------------------

  /** ASCII white space: the characters Go's `strings.TrimSpace` removes
      from ASCII text (tab, line feed, vertical tab, form feed, carriage
      return, space). */
  predicate IsSpace(c: char) {
    c == ' ' || c == '\t' || c == '\n' || c == '\r' || c == '\U{0B}' || c == '\U{0C}'
  }

  predicate AllSpace(s: string) {
    forall i | 0 <= i < |s| :: IsSpace(s[i])
  }

  /** The length of the run of white space that starts at `i`. */
  function SpaceRun(s: string, i: nat): (n: nat)
    requires i <= |s|
    ensures i + n <= |s|
    ensures forall k | i <= k < i + n :: IsSpace(s[k])
    ensures i + n == |s| || !IsSpace(s[i + n])
    decreases |s| - i
  {
    if i < |s| && IsSpace(s[i]) then 1 + SpaceRun(s, i + 1) else 0
  }

  /** The length of the run of white space that ends just before `j`. */
  function SpaceRunBack(s: string, j: nat): (n: nat)
    requires j <= |s|
    ensures n <= j
    ensures forall k | j - n <= k < j :: IsSpace(s[k])
    ensures n == j || !IsSpace(s[j - n - 1])
  {
    if j > 0 && IsSpace(s[j - 1]) then 1 + SpaceRunBack(s, j - 1) else 0
  }

  /** A stretch of white space, seen as a slice. */
  lemma SpaceSlice(s: string, lo: nat, hi: nat)
    requires lo <= hi <= |s|
    requires forall k | lo <= k < hi :: IsSpace(s[k])
    ensures AllSpace(s[lo..hi])
  {
    forall k | 0 <= k < hi - lo ensures IsSpace(s[lo..hi][k]) {
      assert s[lo..hi][k] == s[lo + k];
    }
  }

  /** `strings.TrimSpace`: the part of `s` between its leading and its
      trailing white space. */
  function TrimSpace(s: string): (r: string)
    ensures r == [] <==> AllSpace(s)
    ensures r == [] || (!IsSpace(r[0]) && !IsSpace(r[|r| - 1]))
    ensures exists i | 0 <= i <= |s| - |r| ::
              s[i..i + |r|] == r && AllSpace(s[..i]) && AllSpace(s[i + |r|..])
  {
    var start := SpaceRun(s, 0);
    if start == |s| then
      SpaceSlice(s, 0, |s|);
      assert s[..0] == [] && s[0..|s|] == s;
      []
    else
      var n := SpaceRunBack(s, |s|);
      var stop := |s| - n;
      assert start < stop;
      SpaceSlice(s, 0, start);
      SpaceSlice(s, stop, |s|);
      assert s[0..start] == s[..start] && s[stop..|s|] == s[stop..];
      assert s[start..start + (stop - start)] == s[start..stop];
      s[start..stop]
  }

  /** Trimming only removes characters. */
  lemma TrimSpaceKeepsOut(s: string, c: char)
    requires c !in s
    ensures c !in TrimSpace(s)
  {
    var r := TrimSpace(s);
    var i :| 0 <= i <= |s| - |r| && s[i..i + |r|] == r && AllSpace(s[..i]) && AllSpace(s[i + |r|..]);
    forall k | 0 <= k < |r| ensures r[k] != c {
      assert r[k] == s[i + k];
    }
  }

  // ---------------------------------------------------------------------
  // strings.Split and strings.Join with the separator "\n"
  // ---------------------------------------------------------------------

  /** `strings.Join(xs, "\n")`. */
  function Join(xs: seq<string>): string {
    if |xs| == 0 then []
    else if |xs| == 1 then xs[0]
    else xs[0] + "\n" + Join(xs[1..])
  }

  predicate NoLineFeeds(xs: seq<string>) {
    forall i | 0 <= i < |xs| :: '\n' !in xs[i]
  }

  /** `strings.Split(s, "\n")`: the pieces of `s` between its line feeds.
      The result is never empty: `Split("") == [""]`. */
  function Split(s: string): (r: seq<string>)
    ensures |r| >= 1
    ensures NoLineFeeds(r)
    ensures Join(r) == s
  {
    if s == [] then [[]]
    else
      var rest := Split(s[1..]);
      if s[0] == '\n' then
        assert s == "\n" + s[1..];
        [[]] + rest
      else
        var r := [[s[0]] + rest[0]] + rest[1..];
        assert r[1..] == rest[1..];
        assert s == [s[0]] + s[1..];
        r
  }

  /** The first piece of a split is the text before the first line feed. */
  lemma FirstPiece(s: string)
    ensures HasPrefix(s, Split(s)[0])
    ensures Split(s)[0] == s || s[|Split(s)[0]|] == '\n'
  {
    var xs := Split(s);
    if |xs| > 1 {
      assert s == xs[0] + "\n" + Join(xs[1..]);
    }
  }

  /** The last piece of a split is the text after the last line feed. */
  lemma LastPiece(s: string)
    ensures HasSuffix(s, Split(s)[|Split(s)| - 1])
    ensures var l := Split(s)[|Split(s)| - 1]; l == s || s[|s| - |l| - 1] == '\n'
  {
    var xs := Split(s);
    var n := |xs|;
    if n > 1 {
      JoinSnoc(xs);
      assert s == Join(xs[..n - 1]) + "\n" + xs[n - 1];
    }
  }

  lemma {:induction false} JoinSnoc(xs: seq<string>)
    requires |xs| > 1
    ensures Join(xs) == Join(xs[..|xs| - 1]) + "\n" + xs[|xs| - 1]
  {
    if |xs| > 2 {
      JoinSnoc(xs[1..]);
      assert xs[1..][..|xs| - 2] == xs[..|xs| - 1][1..];
    }
  }

  lemma {:induction false} SplitWithoutLineFeed(s: string)
    requires '\n' !in s
    ensures Split(s) == [s]
  {
    if s != [] {
      SplitWithoutLineFeed(s[1..]);
    }
  }

  /** Splitting after a first piece without line feed. */
  lemma {:induction false} SplitCons(x: string, t: string)
    requires '\n' !in x
    ensures Split(x + "\n" + t) == [x] + Split(t)
  {
    var s := x + "\n" + t;
    if x == [] {
      assert s[1..] == t;
    } else {
      assert s[1..] == x[1..] + "\n" + t;
      SplitCons(x[1..], t);
      assert [x[0]] + x[1..] == x;
    }
  }

  /** Splitting undoes joining, for pieces without line feeds. */
  lemma {:induction false} SplitJoin(xs: seq<string>)
    requires |xs| >= 1 && NoLineFeeds(xs)
    ensures Split(Join(xs)) == xs
  {
    if |xs| == 1 {
      SplitWithoutLineFeed(xs[0]);
    } else {
      SplitJoin(xs[1..]);
      SplitCons(xs[0], Join(xs[1..]));
      assert [xs[0]] + xs[1..] == xs;
    }
  }

  /** A character absent from `s` is absent from every piece of `Split(s)`. */
  lemma {:induction false} SplitKeepsOut(s: string, c: char)
    requires c !in s
    ensures forall i | 0 <= i < |Split(s)| :: c !in Split(s)[i]
  {
    if s != [] {
      assert c !in s[1..] by {
        forall k | 0 <= k < |s[1..]| ensures s[1..][k] != c {
          assert s[1..][k] == s[k + 1];
        }
      }
      SplitKeepsOut(s[1..], c);
    }
  }

  // ---------------------------------------------------------------------
  // Lines each followed by a line feed, and bufio.ScanLines
  // ---------------------------------------------------------------------

  /** The lines `ls`, each written followed by "\n". */
  function Unlines(ls: seq<string>): string {
    if |ls| == 0 then [] else ls[0] + "\n" + Unlines(ls[1..])
  }

  lemma {:induction false} UnlinesAppend(a: seq<string>, b: seq<string>)
    ensures Unlines(a + b) == Unlines(a) + Unlines(b)
  {
    if |a| > 0 {
      assert (a + b)[1..] == a[1..] + b;
      UnlinesAppend(a[1..], b);
    } else {
      assert a + b == b;
    }
  }

  /** Terminating every line is joining them with one more, empty, line. */
  lemma {:induction false} UnlinesIsJoin(ls: seq<string>)
    ensures Unlines(ls) == Join(ls + [[]])
  {
    if |ls| > 0 {
      assert (ls + [[]])[1..] == ls[1..] + [[]];
      UnlinesIsJoin(ls[1..]);
    }
  }

  /** Splitting terminated lines gives the lines back, plus the empty piece
      after the last line feed. */
  lemma SplitUnlines(ls: seq<string>)
    requires NoLineFeeds(ls)
    ensures Split(Unlines(ls)) == ls + [[]]
  {
    UnlinesIsJoin(ls);
    SplitJoin(ls + [[]]);
  }

  /** `bufio`'s `dropCR`: one trailing carriage return is removed. */
  function DropCR(line: string): (r: string)
    ensures EndsInCR(line) ==> |r| + 1 == |line| && r == line[..|r|]
    ensures !EndsInCR(line) ==> r == line
  {
    if |line| > 0 && line[|line| - 1] == '\r' then line[..|line| - 1] else line
  }

  /** The lines a `bufio.Scanner` with `ScanLines` yields for the input `s`:
      the text is cut at each line feed, a trailing carriage return is removed
      from each line, and no empty line is produced after a final line feed. */
  function ScanLines(s: string): seq<string> {
    if s == [] then []
    else
      var parts := Split(s);
      var full := if parts[|parts| - 1] == [] then parts[..|parts| - 1] else parts;
      DropCRs(full)
  }

  /** The scanned lines are the pieces of the text, without the empty piece
      after a final line feed, each with one trailing carriage return
      removed; there are none exactly when the text is empty. */
  lemma ScanPieces(s: string)
    ensures var r := ScanLines(s);
            && (r == [] <==> s == [])
            && (s != [] ==>
                  || (|r| == |Split(s)| && Split(s)[|r| - 1] != [])
                  || (|r| + 1 == |Split(s)| && Split(s)[|r|] == []))
            && forall i | 0 <= i < |r| :: r[i] == DropCR(Split(s)[i]) && '\n' !in r[i]
  {
    var r := ScanLines(s);
    if s == [] {
      assert r == [];
    } else {
      var parts := Split(s);
      if parts[|parts| - 1] != [] {
        ScanWholeLines(s);
        assert |r| == |parts| && parts[|r| - 1] != [];
      } else {
        ScanTerminatedLines(s);
        assert |r| + 1 == |parts| && parts[|r|] == [];
      }
      assert r != [];
    }
  }

  lemma ScanWholeLines(s: string)
    requires s != [] && Split(s)[|Split(s)| - 1] != []
    ensures |ScanLines(s)| == |Split(s)|
    ensures forall i | 0 <= i < |Split(s)| ::
              ScanLines(s)[i] == DropCR(Split(s)[i]) && '\n' !in ScanLines(s)[i]
  {
    ScanWhole(s);
    DropCRsLines(Split(s));
  }

  lemma ScanTerminatedLines(s: string)
    requires s != [] && Split(s)[|Split(s)| - 1] == []
    ensures |ScanLines(s)| + 1 == |Split(s)| && |Split(s)| > 1
    ensures forall i | 0 <= i < |ScanLines(s)| ::
              ScanLines(s)[i] == DropCR(Split(s)[i]) && '\n' !in ScanLines(s)[i]
  {
    var parts := Split(s);
    assert |parts| != 1;
    ScanTerminated(s);
    var full := parts[..|parts| - 1];
    assert forall i | 0 <= i < |full| :: full[i] == parts[i];
    DropCRsLines(full);
  }

  /** Removing carriage returns keeps lines free of line feeds. */
  lemma DropCRsLines(ls: seq<string>)
    requires NoLineFeeds(ls)
    ensures forall i | 0 <= i < |ls| :: DropCRs(ls)[i] == DropCR(ls[i]) && '\n' !in DropCRs(ls)[i]
  {
    forall i | 0 <= i < |ls| ensures '\n' !in DropCR(ls[i]) {
      DropCRKeepsOut(ls[i], '\n');
    }
  }

  lemma DropCRKeepsOut(line: string, c: char)
    requires c !in line
    ensures c !in DropCR(line)
  {
    var r := DropCR(line);
    forall k | 0 <= k < |r| ensures r[k] != c {
      assert r[k] == line[k];
    }
  }

  function DropCRs(ls: seq<string>): seq<string> {
    seq(|ls|, i requires 0 <= i < |ls| => DropCR(ls[i]))
  }

  predicate EndsInCR(line: string) {
    |line| > 0 && line[|line| - 1] == '\r'
  }

  lemma DropCRsUnchanged(ls: seq<string>)
    requires forall i | 0 <= i < |ls| :: !EndsInCR(ls[i])
    ensures DropCRs(ls) == ls
  {
  }

  /** Lines that a scanner gives back unchanged: no line feed inside and no
      carriage return at the end. */
  predicate PlainLines(ls: seq<string>) {
    forall i | 0 <= i < |ls| :: '\n' !in ls[i] && !EndsInCR(ls[i])
  }

  lemma PlainAppend(a: seq<string>, b: seq<string>)
    requires PlainLines(a) && PlainLines(b)
    ensures PlainLines(a + b)
  {
    forall i | 0 <= i < |a + b| ensures '\n' !in (a + b)[i] && !EndsInCR((a + b)[i]) {
      if i < |a| {
        assert (a + b)[i] == a[i];
      } else {
        assert (a + b)[i] == b[i - |a|];
      }
    }
  }

  /** The lines scanned from text without carriage returns are plain. */
  lemma PlainScanned(s: string)
    requires '\r' !in s
    ensures PlainLines(ScanLines(s))
  {
    if s != [] {
      var parts := Split(s);
      SplitKeepsOut(s, '\r');
      var full := if parts[|parts| - 1] == [] then parts[..|parts| - 1] else parts;
      assert forall i | 0 <= i < |full| :: full[i] == parts[i];
      assert forall i | 0 <= i < |full| :: '\r' !in full[i] && '\n' !in full[i];
      DropCRsUnchanged(full);
    }
  }

  /** Reading back lines that were written one per line yields them again. */
  lemma ScanUnlines(ls: seq<string>)
    requires PlainLines(ls)
    ensures ScanLines(Unlines(ls)) == ls
  {
    if |ls| > 0 {
      var s := Unlines(ls);
      assert s != [];
      SplitUnlines(ls);
      var parts := Split(s);
      assert parts == ls + [[]];
      assert parts[..|parts| - 1] == ls;
      DropCRsUnchanged(ls);
    }
  }

  /** Text without carriage returns that is empty or ends in a line feed is
      reproduced exactly when its scanned lines are written back one per line. */
  lemma UnlinesScan(s: string)
    requires '\r' !in s
    requires s == [] || s[|s| - 1] == '\n'
    ensures Unlines(ScanLines(s)) == s
  {
    if s != [] {
      var t := s[..|s| - 1];
      assert s == t + "\n";
      AppendedLineFeed(t);
      var parts := Split(s);
      var full := parts[..|parts| - 1];
      assert full == Split(t);
      SplitKeepsOut(s, '\r');
      DropCRsUnchanged(full);
      assert ScanLines(s) == full;
      UnlinesIsJoin(full);
    }
  }

  /** Adding a line feed at the end adds one empty piece to the split. */
  lemma {:induction false} AppendedLineFeed(t: string)
    ensures Split(t + "\n") == Split(t) + [[]]
  {
    var s := t + "\n";
    if t == [] {
      assert s[1..] == [];
    } else {
      assert s[1..] == t[1..] + "\n";
      AppendedLineFeed(t[1..]);
      assert t == [t[0]] + t[1..];
    }
  }

  /** Text without carriage returns that does not end in a line feed gets
      exactly one line feed added when its scanned lines are written back. */
  lemma UnlinesScanAddsLineFeed(s: string)
    requires '\r' !in s
    requires s != [] && s[|s| - 1] != '\n'
    ensures Unlines(ScanLines(s)) == s + "\n"
  {
    ScanUnterminated(s);
    UnlinesIsJoin(Split(s));
    JoinAppendEmpty(Split(s));
  }

  /** Text without carriage returns whose last line has no line feed scans
      to exactly its pieces. */
  lemma ScanUnterminated(s: string)
    requires '\r' !in s
    requires s != [] && s[|s| - 1] != '\n'
    ensures ScanLines(s) == Split(s)
  {
    LastPieceKept(s);
    ScanWhole(s);
    PiecesWithoutCR(s);
    DropCRsUnchanged(Split(s));
  }

  /** Text whose last piece is empty scans to the pieces before it. */
  lemma ScanTerminated(s: string)
    requires s != [] && Split(s)[|Split(s)| - 1] == []
    ensures ScanLines(s) == DropCRs(Split(s)[..|Split(s)| - 1])
  {
  }

  /** Text whose last piece is not empty scans to all of its pieces. */
  lemma ScanWhole(s: string)
    requires s != [] && Split(s)[|Split(s)| - 1] != []
    ensures ScanLines(s) == DropCRs(Split(s))
  {
  }

  /** Text that does not end in a line feed has a non-empty last piece. */
  lemma LastPieceKept(s: string)
    requires s != [] && s[|s| - 1] != '\n'
    ensures Split(s)[|Split(s)| - 1] != []
  {
    LastPieceIsTail(s);
  }

  /** The pieces of text without carriage returns do not end in one. */
  lemma PiecesWithoutCR(s: string)
    requires '\r' !in s
    ensures forall i | 0 <= i < |Split(s)| :: !EndsInCR(Split(s)[i])
  {
    SplitKeepsOut(s, '\r');
    forall i | 0 <= i < |Split(s)| ensures !EndsInCR(Split(s)[i]) {
      assert '\r' !in Split(s)[i];
    }
  }

  /** The last piece of a split is empty exactly when the text ends in a
      line feed. */
  lemma {:induction false} LastPieceIsTail(s: string)
    ensures (Split(s)[|Split(s)| - 1] == []) <==> (s == [] || s[|s| - 1] == '\n')
  {
    if s != [] {
      LastPieceIsTail(s[1..]);
      var rest := Split(s[1..]);
      if s[0] != '\n' && |rest| == 1 {
        assert Split(s)[|Split(s)| - 1] == [s[0]] + rest[0];
      }
    }
  }

  lemma {:induction false} JoinAppendEmpty(xs: seq<string>)
    requires |xs| >= 1
    ensures Join(xs + [[]]) == Join(xs) + "\n"
  {
    if |xs| > 1 {
      assert (xs + [[]])[1..] == xs[1..] + [[]];
      JoinAppendEmpty(xs[1..]);
    }
  }

  // ---------------------------------------------------------------------
  // Dropping empty lines
  // ---------------------------------------------------------------------

  /** The non-empty strings of `xs`, in their order. */
  function DropEmpty(xs: seq<string>): (r: seq<string>)
    ensures |r| <= |xs|
    ensures forall i | 0 <= i < |r| :: r[i] != []
    ensures forall x :: x in r <==> x in xs && x != []
  {
    if |xs| == 0 then []
    else
      var rest := DropEmpty(xs[1..]);
      assert forall x :: x in xs <==> x == xs[0] || x in xs[1..];
      (if xs[0] == [] then [] else [xs[0]]) + rest
  }

  /** Dropping empty strings works piecewise, so it keeps the order of the
      strings it keeps. */
  lemma {:induction false} DropEmptyAppend(a: seq<string>, b: seq<string>)
    ensures DropEmpty(a + b) == DropEmpty(a) + DropEmpty(b)
  {
    if |a| == 0 {
      assert a + b == b;
    } else {
      assert (a + b)[1..] == a[1..] + b;
      DropEmptyAppend(a[1..], b);
    }
  }

  // ---------------------------------------------------------------------
  // filepath.Split
  // ---------------------------------------------------------------------

  /** The length of the run of characters other than '/' that ends just
      before `j`. */
  function NameRun(path: string, j: nat): (n: nat)
    requires j <= |path|
    ensures n <= j
    ensures forall k | j - n <= k < j :: path[k] != '/'
    ensures n == j || path[j - n - 1] == '/'
  {
    if j > 0 && path[j - 1] != '/' then 1 + NameRun(path, j - 1) else 0
  }

  /** The file part of `filepath.Split(path)` with '/' as the separator: the
      text after the last '/'. */
  function Base(path: string): (r: string)
    ensures '/' !in r
    ensures HasSuffix(path, r)
    ensures r == path || path[|path| - |r| - 1] == '/'
  {
    var start := |path| - NameRun(path, |path|);
    var r := path[start..];
    assert forall k | 0 <= k < |r| :: r[k] == path[start + k];
    r
  }
}

=== FILE: version.dfy ===
/** Extracting the new version from a bump commit's message (`getNewVersion`
    in loggit.go, after the message file has been read), and a matcher for
    the default version pattern `\d+\.\d+\.\d+`. */
module Version {
  import opened Outcomes
  import opened Text
  import opened Configuration

  const InvalidVersionMsg := "Invalid format for new version in this commit"

  /** `getNewVersion` on the message text. `find` is the compiled version
      pattern's `Find`: the leftmost match, or "" when there is none. A
      message that does not start with the bump marker carries no new
      version; a bump message without a match is fatal. */
  function GetNewVersion(cfg: Config, commitMsg: string, find: string -> string): (r: Outcome<string>)
    ensures r.NoVersion? <==> !HasPrefix(commitMsg, cfg.bumpVersionMsg)
    ensures r.Ok? ==> r.value != [] && r.value == find(commitMsg)
    ensures r.Fatal? ==> r.reason == InvalidVersionMsg
    ensures HasPrefix(commitMsg, cfg.bumpVersionMsg) && find(commitMsg) != [] ==> r == Ok(find(commitMsg))
  {
    if !HasPrefix(commitMsg, cfg.bumpVersionMsg) then NoVersion
    else
      var versionMatch := find(commitMsg);
      if |versionMatch| == 0 then Fatal(InvalidVersionMsg) else Ok(versionMatch)
  }

  /** With a complete configuration the bump marker is not empty, so an empty
      message never declares a version, whatever the pattern. */
  lemma EmptyMessageHasNoVersion(cfg: Config, find: string -> string)
    requires Complete(cfg)
    ensures GetNewVersion(cfg, [], find) == NoVersion
  {
  }

  // ---------------------------------------------------------------------
  // The default pattern \d+\.\d+\.\d+
  // ---------------------------------------------------------------------

  predicate IsDigit(c: char) {
    '0' <= c <= '9'
  }

  predicate AllDigits(s: string) {
    forall i | 0 <= i < |s| :: IsDigit(s[i])
  }

  /** `t` as a whole matches `\d+\.\d+\.\d+`: three non-empty runs of ASCII
      digits separated by single dots. */
  ghost predicate IsVersion(t: string) {
    exists p: nat, q: nat :: DotsAt(t, p, q)
  }

  /** `t` is three non-empty runs of digits with its dots at `p` and `q`. */
  predicate DotsAt(t: string, p: nat, q: nat) {
    && 0 < p && p + 1 < q && q + 1 < |t|
    && AllDigits(t[..p]) && t[p] == '.'
    && AllDigits(t[p + 1..q]) && t[q] == '.'
    && AllDigits(t[q + 1..])
  }

  /** No part of `s` matches the pattern. */
  ghost predicate NoVersionIn(s: string) {
    forall i, j | 0 <= i <= j <= |s| :: !IsVersion(s[i..j])
  }

  /** `s[i..j]` is the match a leftmost-first, greedy engine reports: it
      matches, no match starts further left, and no longer match starts at `i`. */
  ghost predicate LeftmostLongest(s: string, i: nat, j: nat) {
    && i <= j <= |s|
    && IsVersion(s[i..j])
    && (forall i', j' | 0 <= i' < i && i' <= j' <= |s| :: !IsVersion(s[i'..j']))
    && (forall j' | j < j' <= |s| :: !IsVersion(s[i..j']))
  }

  /** The length of the run of digits that starts at `i`. */
  function DigitRun(s: string, i: nat): (n: nat)
    requires i <= |s|
    ensures i + n <= |s|
    ensures forall k | i <= k < i + n :: IsDigit(s[k])
    ensures i + n == |s| || !IsDigit(s[i + n])
    decreases |s| - i
  {
    if i < |s| && IsDigit(s[i]) then
      1 + DigitRun(s, i + 1)
    else
      0
  }

  /** A run of digits ended by a non-digit is the run `DigitRun` measures. */
  lemma RunLength(s: string, i: nat, j: nat)
    requires i <= j < |s|
    requires AllDigits(s[i..j]) && !IsDigit(s[j])
    ensures DigitRun(s, i) == j - i
  {
    assert forall k | i <= k < j :: s[k] == s[i..j][k - i];
  }

  /** A run of digits lies within the run `DigitRun` measures. */
  lemma RunCovers(s: string, i: nat, j: nat)
    requires i <= j <= |s|
    requires AllDigits(s[i..j])
    ensures i + DigitRun(s, i) >= j
  {
    assert forall k | i <= k < j :: s[k] == s[i..j][k - i];
  }

  /** The end of the greedy match of the pattern that starts at `i`, if any:
      a maximal run of digits, a dot, a maximal run, a dot, a maximal run. */
  function MatchAt(s: string, i: nat): (r: Option<nat>)
    requires i <= |s|
    ensures r.Some? ==> i < r.value <= |s|
  {
    var a := i + DigitRun(s, i);
    if a == i || a == |s| || s[a] != '.' then None
    else
      var b := a + 1 + DigitRun(s, a + 1);
      if b == a + 1 || b == |s| || s[b] != '.' then None
      else
        var c := b + 1 + DigitRun(s, b + 1);
        if c == b + 1 then None else Some(c)
  }

  /** What the greedy match finds does match the pattern. */
  lemma MatchAtSound(s: string, i: nat)
    requires i <= |s| && MatchAt(s, i).Some?
    ensures IsVersion(s[i..MatchAt(s, i).value])
  {
    var a := i + DigitRun(s, i);
    var b := a + 1 + DigitRun(s, a + 1);
    var c := b + 1 + DigitRun(s, b + 1);
    var t := s[i..c];
    assert t[..a - i] == s[i..a];
    assert t[a - i + 1..b - i] == s[a + 1..b];
    assert t[b - i + 1..] == s[b + 1..c];
    assert t[a - i] == s[a] && t[b - i] == s[b];
    assert DotsAt(t, a - i, b - i);
  }

  /** The greedy match at `i` read off its three digit runs. */
  lemma MatchAtRuns(s: string, i: nat, a: nat, b: nat)
    requires i < a < |s| && a == i + DigitRun(s, i) && s[a] == '.'
    requires a + 1 < b < |s| && b == a + 1 + DigitRun(s, a + 1) && s[b] == '.'
    requires DigitRun(s, b + 1) > 0
    ensures MatchAt(s, i) == Some(b + 1 + DigitRun(s, b + 1))
  {
  }

  /** Digits found in a part of a slice of `s` are digits of `s`. */
  lemma DigitsOfSlice(s: string, i: nat, j: nat, a: nat, b: nat)
    requires i <= j <= |s| && a <= b <= j - i
    requires AllDigits(s[i..j][a..b])
    ensures AllDigits(s[i + a..i + b])
  {
    assert forall k | 0 <= k < b - a :: s[i..j][a..b][k] == s[i + a + k];
    assert s[i..j][a..b] == s[i + a..i + b];
  }

  /** The runs and dots of a match inside `s`, in the positions of `s`. */
  lemma DotsInside(s: string, i: nat, j: nat, p: nat, q: nat)
    requires i <= j <= |s| && DotsAt(s[i..j], p, q)
    ensures AllDigits(s[i..i + p]) && s[i + p] == '.'
    ensures AllDigits(s[i + p + 1..i + q]) && s[i + q] == '.'
    ensures AllDigits(s[i + q + 1..j])
  {
    var t := s[i..j];
    assert t[..p] == t[0..p];
    assert t[q + 1..] == t[q + 1..j - i];
    DigitsOfSlice(s, i, j, 0, p);
    DigitsOfSlice(s, i, j, p + 1, q);
    DigitsOfSlice(s, i, j, q + 1, j - i);
    assert s[i + p] == t[p] && s[i + q] == t[q];
  }

  /** Every match that starts at `i` ends no later than the greedy one. */
  lemma MatchAtComplete(s: string, i: nat, j: nat)
    requires i <= j <= |s|
    requires IsVersion(s[i..j])
    ensures MatchAt(s, i).Some? && j <= MatchAt(s, i).value
  {
    var p: nat, q: nat :| DotsAt(s[i..j], p, q);
    DotsInside(s, i, j, p, q);
    GreedyCovers(s, i, j, i + p, i + q);
  }

  /** Three runs of digits separated by dots at `a` and `b`, from `i` to `j`,
      are covered by the greedy match at `i`. */
  lemma GreedyCovers(s: string, i: nat, j: nat, a: nat, b: nat)
    requires i < a && a + 1 < b && b + 1 < j <= |s|
    requires AllDigits(s[i..a]) && s[a] == '.'
    requires AllDigits(s[a + 1..b]) && s[b] == '.'
    requires AllDigits(s[b + 1..j])
    ensures MatchAt(s, i).Some? && j <= MatchAt(s, i).value
  {
    RunLength(s, i, a);
    RunLength(s, a + 1, b);
    RunCovers(s, b + 1, j);
    MatchAtRuns(s, i, a, b);
  }

  /** The leftmost start at or after `i` where the pattern matches, with the
      end of the greedy match there. */
  function FindFrom(s: string, i: nat): (r: Option<(nat, nat)>)
    requires i <= |s|
    ensures r.Some? ==> i <= r.value.0 <= |s| && MatchAt(s, r.value.0) == Some(r.value.1)
    ensures r.Some? ==> forall k | i <= k < r.value.0 :: MatchAt(s, k).None?
    ensures r.None? ==> forall k | i <= k <= |s| :: MatchAt(s, k).None?
    decreases |s| - i
  {
    var m := MatchAt(s, i);
    if m.Some? then Some((i, m.value))
    else if i == |s| then None
    else
      var rest := FindFrom(s, i + 1);
      assert forall k | i <= k < i + 1 :: MatchAt(s, k).None?;
      rest
  }

  /** `regexp.MustCompile("\\d+\\.\\d+\\.\\d+").Find`: the leftmost, longest
      match of the default version pattern, or "" when nothing matches. */
  function FindVersion(s: string): (r: string)
    ensures r == [] <==> NoVersionIn(s)
    ensures r != [] ==> exists i: nat, j: nat :: LeftmostLongest(s, i, j) && r == s[i..j]
  {
    match FindFrom(s, 0)
    case None =>
      assert NoVersionIn(s) by {
        forall i, j | 0 <= i <= j <= |s| ensures !IsVersion(s[i..j]) {
          if IsVersion(s[i..j]) {
            MatchAtComplete(s, i, j);
          }
        }
      }
      []
    case Some((i, j)) =>
      assert LeftmostLongest(s, i, j) by {
        MatchAtSound(s, i);
        forall i', j' | 0 <= i' < i && i' <= j' <= |s| ensures !IsVersion(s[i'..j']) {
          if IsVersion(s[i'..j']) {
            MatchAtComplete(s, i', j');
          }
        }
        forall j' | j < j' <= |s| ensures !IsVersion(s[i..j']) {
          if IsVersion(s[i..j']) {
            MatchAtComplete(s, i, j');
          }
        }
      }
      s[i..j]
  }

  /** With the default pattern, a bump message yields the leftmost, longest
      match in it, a contiguous part of the message, and is fatal exactly
      when no part of the message matches. */
  lemma DefaultVersionMatch(cfg: Config, commitMsg: string)
    requires HasPrefix(commitMsg, cfg.bumpVersionMsg)
    ensures GetNewVersion(cfg, commitMsg, FindVersion).Fatal? <==> NoVersionIn(commitMsg)
    ensures GetNewVersion(cfg, commitMsg, FindVersion).Ok? ==>
              exists i: nat, j: nat :: LeftmostLongest(commitMsg, i, j)
                && GetNewVersion(cfg, commitMsg, FindVersion).value == commitMsg[i..j]
  {
  }
}
